=== FILE: README.md ===
# Wabbajack fast downloader: manifest → Nexus URL → batch pipeline, in Dafny

This project models the core of the Wabbajack fast downloader. The downloader reads a
Wabbajack mod-list manifest and turns each archive entry into a Nexus Mods file URL
(`https://www.nexusmods.com/{game}/mods/{ModID}?tab=files&file_id={FileID}`). It writes
those URLs to `output.txt`, one per line. It then reads the file back and opens the
URLs in the browser, 20 at a time, counting progress.

Modules (all files verify together):

- `wrappers.dfy`, module `Wrappers`: the `Option` type.
- `text.dfy`, module `Text`: the Python string primitives the code relies on. These are
  `str.isspace`/`str.strip`, ASCII `str.lower`, `str()` of an integer, the newline
  translation of a text-mode read, and the way `readlines()` cuts a text into lines.
- `extract_modlist.dfy`, module `ExtractModlist` (extract_modlist.py):
  - the manifest entry datatypes;
  - per-entry translation, with `TypeError`/`KeyError` skipping one entry and the
    `AttributeError` of a non-string game name escaping;
  - extraction over the whole entry list;
  - the one-URL-per-line writer.
- `batch_download.dfy`, module `BatchDownload` (batch_download.py):
  - reading the file into stripped lines and counting them;
  - the write/read round trip;
  - the slicing loop, and `Batches`, the generator's batches.
- `gui.dfy`, modules `Gui` and `GuiWindow` (gui.py, `Application`):
  - the window's cursor/progress state as pure transitions over `AppState`;
  - `import_links`, `get_batch`, `download_links`, `extract_url`, `extract_file`, the
    quote normalisation, and start-up;
  - class `GuiWindow.Application`, a mutable object whose fields are that state. It
    also logs every URL handed to the browser.

The state invariant `Gui.Consistent` says: once a generator exists and `links_amount`
is not 0, processed links plus pending links equal `links_amount`, and every pending
batch holds 1 to 20 links. Without a generator, or with a count of 0, it says nothing.
Such a state can still hold a stale generator: importing an empty file sets the count
to 0 and keeps the old generator (gui.py:216-219). `download_links` then opens nothing.
The invariant holds after start-up. Every download keeps it. Every import of an
existing file and every extraction keeps it too.

gui.py calls `generate_url`, `write_urls_to_file`, `count_lines` and
`read_links_in_batches`. The model takes them to be the bodies of the two scripts:
`Translate` is lines 20-30 of extract_modlist.py, and `Serialize`/`WriteUrls` are lines
33-35. `ReadLinks` plus `Batches` is batch_download.py lines 5-26. `CountLines` counts
the pieces `readlines()` returns.

Behaviour worth knowing:

- Reading keeps blank lines as empty strings, since `strip()` does not drop them.
- Reading is in text mode, so `\r\n` and a lone `\r` become `\n` before the text is
  cut into lines (`TranslateNewlines`). A URL holding `\r` therefore reads back as two
  links (`ReturnSplitsLine`).
- A non-string `GameName` raises `AttributeError`, which no per-entry handler catches.
  The extraction ends, and nothing is written or imported.
- With no `Archives` key, the window gets an empty list (`.get("Archives", [])`). The
  stand-alone script raises `KeyError` and writes nothing (`RunScript`).
- Pressing "Download Batch" with no generator does nothing. Progress is not clamped.
  Its bound follows from the invariant, as `ProgressBounded` shows.

## Model

| member | source | states |
|---|---|---|
| Text.Strip | batch_download.py:5 | `strip()` leaves no edge whitespace, gives `""` exactly for a blank line, and is the identity on already stripped text |
| Text.StripIsTrimmedSlice | batch_download.py:5 | what `strip()` returns is a slice of the input with only whitespace before and after it |
| Text.TrimEnd | batch_download.py:5 | the `rstrip` cut point: everything after it is whitespace and the character before it is not |
| Text.TrimStart | batch_download.py:5 | the `lstrip` cut point: everything before it is whitespace and the character at it is not |
| Text.StripKeepsLacks | batch_download.py:5 | `strip()` never brings in a character its input lacks |
| Text.StripTrailingSpace | batch_download.py:5 | a whitespace character added at the end (the line break) is removed again by `strip()` |
| Text.Lower | extract_modlist.py:23 | `lower()` maps each character on its own: same length, upper-case ASCII letters shifted, no upper-case ASCII letter left |
| Text.IntToString | extract_modlist.py:24 | the f-string text of an integer id: a minus sign exactly for negatives, then its decimal digits |
| Text.DigitsRoundTrip | extract_modlist.py:24 | the decimal digits of a number read back as that number |
| Text.RawLines | batch_download.py:5 | `readlines()` pieces are non-empty, reassemble the text in order, and hold a line break only as the last character; every piece but the last ends in one |
| Text.TranslateNewlines | batch_download.py:4-5 | the text-mode read leaves no `\r` and never lengthens the text |
| Text.TranslateKeepsPrefix | batch_download.py:4-5 | a leading part without `\r` passes through the translation unchanged |
| Text.TranslateCRLF | batch_download.py:4-5 | a `\r\n` pair after text without `\r` reads as one `\n`, not two line breaks |
| Text.TranslateLoneCR | batch_download.py:4-5 | a lone `\r` (not followed by `\n`) after text without `\r` reads as one `\n` |
| Text.TranslateIdentity | batch_download.py:4-5 | a text without `\r` is read as it is, so translating twice is translating once |
| Text.ReadLines | batch_download.py:4-5 | the lines of a text-mode read reassemble the translated text, hold no `\r`, and all but the last end in a line break |
| Text.RawLinesCons | batch_download.py:5 | a terminated first line of a text is exactly its first `readlines()` piece |
| ExtractModlist.NexusUrl | extract_modlist.py:23-24 | the URL starts with the Nexus host, is never empty, and its game segment is the lower-cased game name with no upper-case ASCII letter, followed by `/mods/{ModID}?tab=files&file_id={FileID}` |
| ExtractModlist.Translate | extract_modlist.py:20-30 | an entry yields a URL if and only if it is a mapping whose `State` is a mapping holding `ModID`, `FileID` and a string `GameName`, and then exactly its URL. A non-mapping entry or `State` is skipped as an invalid format, and a missing key as a missing key. A non-string game name raises |
| ExtractModlist.WellFormedUrl | extract_modlist.py:21-25 | a well-formed entry yields exactly host + lower(GameName) + `/mods/` + ModID + `?tab=files&file_id=` + FileID |
| ExtractModlist.Extract | extract_modlist.py:15-30 | the extraction has a result if and only if no entry raises; the URL count plus the skip count is the entry count |
| ExtractModlist.ExtractAppend | extract_modlist.py:19 | extracting a concatenation of entry lists concatenates their URL lists, so URLs keep entry order |
| ExtractModlist.SkipIsIsolated | extract_modlist.py:27-30 | a skipped entry anywhere in the list changes nothing about the other entries' URLs |
| ExtractModlist.NoPartialUrl | extract_modlist.py:21-25 | every extracted URL is the full translation of some entry of the list |
| ExtractModlist.ExtractUrls | extract_modlist.py:15-30 | the loop raises if and only if some entry raises; otherwise it returns the extraction's URLs and a skip count that adds up to the entry count |
| ExtractModlist.Serialize | extract_modlist.py:33-35 | the written text is empty exactly for an empty list and otherwise ends with a line break |
| ExtractModlist.SerializeIsConcat | extract_modlist.py:33-35 | the written text is the in-order concatenation of `url + "\n"` |
| ExtractModlist.WriteUrls | extract_modlist.py:33-35 | the writing loop produces the concatenation of `url + "\n"` over the list |
| ExtractModlist.RunScript | extract_modlist.py:8-35 | the script writes a file only when the manifest parses, has `Archives` and no entry raises, and then writes the serialised URLs |
| ExtractModlist.SkyrimEntryUrl | extract_modlist.py:21-24 | mod 1, file 10 of game "Skyrim" gives `https://www.nexusmods.com/skyrim/mods/1?tab=files&file_id=10` |
| ExtractModlist.SkyrimExample | extract_modlist.py:18-30 | that entry plus one without `State` yield one URL and one skip |
| BatchDownload.StripPieceNoNewline | batch_download.py:5 | a stripped line holds no line break and no edge whitespace |
| BatchDownload.StripAll | batch_download.py:5 | one stripped string per line, in order |
| BatchDownload.ReadLinks | batch_download.py:5 | one link per `readlines()` piece: link `i` is `strip()` of piece `i`, and each is a single clean line |
| BatchDownload.BlankLinesKept | batch_download.py:5 | a line reads as `""` exactly when it is blank: blank lines are kept, not dropped |
| BatchDownload.ReadLinksCons | batch_download.py:5 | a terminated first line is read on its own, ahead of the rest of the file |
| BatchDownload.CountLines | gui.py:216 | the line count equals the number of links the reader yields |
| BatchDownload.CountLinesByNewlines | gui.py:216 | the line count is the number of line breaks, plus one for an unterminated last line |
| BatchDownload.ReadBackWritten | extract_modlist.py:33-35 | reading back the written file returns the original URL list when no URL holds `\n`, `\r` or edge whitespace |
| BatchDownload.ReturnSplitsLine | batch_download.py:4-5 | the written URL `x\ry` reads back as the two links `x` and `y`, which is why `\r` must be excluded |
| BatchDownload.TwoLinesReadBack | batch_download.py:4-5 | the file `x\ny\n` reads back as the links `x` and `y` |
| BatchDownload.RereadIsStable | batch_download.py:5 | writing out what was read and reading it again gives the same links |
| BatchDownload.Batches | batch_download.py:12-26 | the batches concatenate to the links; there is one per round of the loop (`BatchCount`) and none for no links; each holds 1 to n links, and all but the last hold exactly n |
| BatchDownload.BatchCountIsCeiling | batch_download.py:12-26 | the loop makes ceil(total/n) rounds over `total` links |
| BatchDownload.BatchIsSlice | batch_download.py:14-16 | batch `k` of 20 starts inside the list and is `links[20k : min(20k + 20, total)]` |
| BatchDownload.BatchesAreSlices | batch_download.py:14-16 | every batch `k` of 20 starts inside the list and is `links[20k : min(20k + 20, total)]` |
| BatchDownload.ReadLinksInBatches | batch_download.py:8-26 | the loop, advancing `start` by 20, yields one slice per round (ceil(total/20) of them), `links[start:min(start+20,total)]`, which are the generator's batches |
| BatchDownload.FortyFiveLinks | batch_download.py:8-26 | 45 links come out as batches of 20, 20 and 5 |
| Gui.ImportLinks | gui.py:212-228 | progress is reset to 0. A missing file keeps count and generator. An empty file sets the count to 0 and keeps the old generator. Otherwise the count is the number of links, and the new generator is the file's links cut into batches of 20 |
| Gui.ImportKeepsConsistent | gui.py:212-228 | importing an existing file leaves the progress state consistent |
| Gui.ImportIdempotent | gui.py:212-228 | importing twice gives the same state as importing once, with or without an output file |
| Gui.GetBatch | gui.py:252-259 | the pulled batch followed by the remaining batches is the pending links; an exhausted generator yields `[]` |
| Gui.DownloadLinks | gui.py:230-250 | with no generator, no links, or all links processed, nothing is opened and nothing changes. Otherwise the opened URLs are the next pending batch, the generator keeps the batches after it, and processed grows by exactly their number; an exhausted generator opens nothing |
| Gui.DownloadKeepsConsistent | gui.py:238-248 | a download keeps the progress state consistent |
| Gui.ProgressBounded | gui.py:241-248 | with a generator and a non-zero count, a consistent state has 0 ≤ processed ≤ links_amount, and processed reaches links_amount exactly when no link is pending |
| Gui.DownloadMakesProgress | gui.py:244-248 | while links remain, a download opens 1 to 20 of them, the next in file order, and processed strictly grows |
| Gui.DownloadAllPending | gui.py:244-259 | one press per pending batch opens every pending link exactly once, in order, and completes the progress |
| Gui.DownloadTimesKeepsCount | gui.py:241-248 | downloads never change links_amount |
| Gui.FreshImportDownloadsEverything | gui.py:212-259 | after importing n > 0 links, ceil(n/20) presses open all links of the file in order and bring processed to n |
| Gui.GuiUrls | gui.py:294 | a missing `Archives` key gives no URLs instead of an error; a non-mapping document raises; otherwise the result is the extraction of the entries |
| Gui.NoFalsyUrl | gui.py:294 | every kept URL is non-empty, so the truthiness filter drops only skipped entries |
| Gui.ExtractUrl | gui.py:280-307 | an escaping exception changes nothing. Declining the overwrite dialog leaves the state unchanged. Otherwise the file holds the serialised URLs and the state is exactly the import of that file |
| Gui.ExtractThenImportRoundTrip | gui.py:294-307 | after an accepted extraction of clean URLs, the count is the URL count and the generator walks exactly those URLs in order |
| Gui.MissingArchivesImportsNothing | gui.py:294-307 | a manifest without `Archives` writes an empty file and leaves nothing to download |
| Gui.DeclineChangesNothing | gui.py:298-302 | when the output file exists and the user declines, nothing is written and nothing is imported |
| Gui.NormalizeQuotes | gui.py:276 | every `'` becomes `"` and every other character is kept; the length is unchanged and no `'` remains |
| Gui.ExtractFile | gui.py:261-278 | an empty file name, an unreadable archive or an unparsable manifest leaves the state unchanged; a parsed manifest gives exactly the outcome of `extract_url`, or the old state when it raises; any change resets progress and leaves an output file |
| Gui.ExtractFileKeepsConsistent | gui.py:261-307 | extracting keeps a consistent state consistent, whatever the outcome |
| Gui.CheckOutputFile | gui.py:309-313 | an existing output file is imported (the state is exactly its import, which is consistent); without one nothing changes |
| Gui.Init | gui.py:93-102 | the state after start-up is consistent, with no progress; with no output file there is no generator and no links; with one, the count is its line count and the generator its links in batches of 20 exactly when that count is not 0 |
| GuiWindow.Application.constructor | gui.py:93-102 | a new window holds the start-up state, which is consistent, and has opened nothing |
| GuiWindow.Application.ImportLinks | gui.py:212-228 | the window moves to the import of its state; with an existing file it ends consistent |
| GuiWindow.Application.DownloadLinks | gui.py:230-250 | the window moves as `download_links` does, logs the opened batch, and keeps a consistent state consistent |
| GuiWindow.Application.ExtractFile | gui.py:261-278 | the window moves as `extract_file` does, opens nothing, and keeps a consistent state consistent |

## Left out

- Tkinter widgets, themes, `sv_ttk`, `ConsoleOutput`, the progress-bar rendering and
  `browse_file` (gui.py:17-210): presentation only, with no state the core reads.
- The `ctypes` DPI and dark-mode calls (gui.py:112-129): foreign OS calls.
- `webbrowser.open`, `time.sleep` and `input()`: opening is modelled as the returned
  list of URLs, in order. The pause and the keypress wait have no effect on the state.
- `zipfile` extraction and UTF-8 decoding (gui.py:273-276): `ExtractFile` receives the
  decoded `modlist` member, or `None` when the archive cannot be read.
- `json.loads`: `ExtractFile` receives it as the parameter `parse`, and the script
  (`RunScript`) receives its result. The parsed document is the `Document` datatype.
- File system access and `os.path.exists`: the output file is an `Option<string>`, and
  the overwrite dialog is a boolean input. Write failures are not modelled.
- Text-mode writing turns `\n` into the platform's line separator. The model writes
  `\n`; the text-mode read turns either separator back into `\n`.
- The generator reads the file lazily, on its first pull. The model snapshots the
  batches at import time, so an external edit of `output.txt` between import and
  first download is not modelled.
- The generic `except Exception` of `import_links` (gui.py:227-228): only the missing
  file (gui.py:225-226) is modelled.
- JSON values below the `State` mapping: ids that are lists, floats, booleans, null or
  mappings are `Value.Other`, carrying the text Python's `str()` gives them. An
  `Archives` value that is not a list is not modelled.
- Text.Lower: models ASCII lower-casing only, not Python's full Unicode `str.lower`.
- Gui.ImportKeepsConsistent: requires the output file to exist. A missing file resets
  `processed` but keeps the old generator, which breaks the invariant. Every caller in
  gui.py imports only after checking for, or just writing, the file.

=== FILE: batch_download.dfy ===
/**
 Reading the stored URL list back and walking it in fixed-size batches
 (batch_download.py).

 The file is opened in text mode, so `\r\n` and a lone `\r` read as `\n`; it is
 read with `readlines()` and every line is `strip()`ped, so blank lines are kept
 as empty strings. The loop then takes the slices
 `links[start:min(start + 20, total)]` for `start = 0, 20, 40, ...` while
 `start < total`.
 */
module BatchDownload {
  import opened Text
  import opened ExtractModlist

  /** The batch size of line 8 and of the GUI's generator (gui.py:221). */
  const BatchSize: nat := 20

  function Min(a: int, b: int): int
  {
    if a <= b then a else b
  }

  // ---------------------------------------------------------------------------
  // Reading the links (line 5)
  // ---------------------------------------------------------------------------

  /** A string the writer and the reader agree on: one line in the universal-newline
      sense (no `\n`, no `\r`) and no surrounding whitespace. */
  predicate LineSafe(u: string)
  {
    NoNewline(u) && NoReturn(u) && IsStripped(u)
  }

  /** `strip()` of a text-mode `readlines()` piece is a single clean line. */
  lemma StripPieceNoNewline(p: string)
    requires IsLinePiece(p) && NoReturn(p)
    ensures LineSafe(Strip(p))
  {
    var body := p[..|p| - 1];
    if p[|p| - 1] == '\n' {
      assert p == body + ['\n'];
      StripTrailingSpace(body, '\n');
      StripKeepsLacks(body, '\n');
    } else {
      assert p == body + [p[|p| - 1]];
      assert NoNewline(p);
      StripKeepsLacks(p, '\n');
    }
    StripKeepsLacks(p, '\r');
  }
  /** `strip()` applied to every line, in order. */
  function StripAll(lines: seq<string>): (r: seq<string>)
    ensures |r| == |lines|
    ensures forall i :: 0 <= i < |lines| ==> r[i] == Strip(lines[i])
  {
    if |lines| == 0 then [] else [Strip(lines[0])] + StripAll(lines[1..])
  }

  /** The list comprehension of line 5: one stripped string per line, in file order. */
  function ReadLinks(text: string): (links: seq<string>)
    ensures |links| == |ReadLines(text)|
    ensures forall i :: 0 <= i < |links| ==> links[i] == Strip(ReadLines(text)[i])
    ensures forall i :: 0 <= i < |links| ==> LineSafe(links[i])
  {
    var lines := ReadLines(text);
    forall i | 0 <= i < |lines| ensures LineSafe(Strip(lines[i])) {
      StripPieceNoNewline(lines[i]);
    }
    StripAll(lines)
  }

  /** A line of the file reads as the empty string exactly when it is blank: blank
      lines are kept, not dropped. */
  lemma BlankLinesKept(text: string, i: nat)
    requires i < |ReadLines(text)|
    ensures ReadLinks(text)[i] == "" <==> IsBlank(ReadLines(text)[i])
  {
  }

  /** A terminated first line without carriage returns is read on its own, ahead of
      the rest. */
  lemma ReadLinksCons(p: string, rest: string)
    requires IsLinePiece(p) && EndsWithNewline(p) && NoReturn(p)
    ensures ReadLinks(p + rest) == [Strip(p)] + ReadLinks(rest)
  {
    TranslateKeepsPrefix(p, rest);
    RawLinesCons(p, TranslateNewlines(rest));
    assert ([p] + ReadLines(rest))[1..] == ReadLines(rest);
  }

  /** `count_lines`, which gui.py calls to size the progress bar: the number of pieces
      `readlines()` returns, that is the number of line breaks plus one for an
      unterminated last line. */
  function CountLines(text: string): (n: nat)
    ensures n == |ReadLinks(text)|
  {
    |ReadLines(text)|
  }

  /** The number of line breaks in a text. */
  function NewlineCount(s: string): nat
  {
    if |s| == 0 then 0 else (if s[0] == '\n' then 1 else 0) + NewlineCount(s[1..])
  }

  lemma {:induction false} NewlineCountAppend(a: string, b: string)
    ensures NewlineCount(a + b) == NewlineCount(a) + NewlineCount(b)
    decreases |a|
  {
    if |a| == 0 {
      assert a + b == b;
    } else {
      assert (a + b)[1..] == a[1..] + b;
      NewlineCountAppend(a[1..], b);
    }
  }

  lemma {:induction false} NoNewlineCount(s: string)
    requires NoNewline(s)
    ensures NewlineCount(s) == 0
    decreases |s|
  {
    if |s| > 0 {
      NoNewlineCount(s[1..]);
    }
  }

  /** The line count is the number of line breaks of the translated text, plus one
      when it does not end with a line break; an empty text has no lines. */
  lemma CountLinesByNewlines(text: string)
    ensures var t := TranslateNewlines(text);
            CountLines(text) == NewlineCount(t) + (if |t| > 0 && t[|t| - 1] != '\n' then 1 else 0)
  {
    PiecesByNewlines(TranslateNewlines(text));
  }

  lemma {:induction false} PiecesByNewlines(text: string)
    ensures |RawLines(text)| == NewlineCount(text) + (if |text| > 0 && text[|text| - 1] != '\n' then 1 else 0)
    decreases |text|
  {
    if |text| > 0 {
      var k := LineEnd(text);
      var p, rest := text[..k], text[k..];
      assert text == p + rest;
      NewlineCountAppend(p, rest);
      NewlineCountAppend(p[..k - 1], [p[k - 1]]);
      assert p == p[..k - 1] + [p[k - 1]];
      assert p[..k - 1] == text[..k - 1];
      NoNewlineCount(p[..k - 1]);
      assert [p[k - 1]][1..] == [];
      PiecesByNewlines(rest);
      assert RawLines(text) == [p] + RawLines(rest);
      if |rest| > 0 {
        assert rest[|rest| - 1] == text[|text| - 1];
      }
    }
  }

  /** Reading back what the writer produced gives the same URLs, provided no URL
      holds a line break or surrounding whitespace. */
  lemma {:induction false} ReadBackWritten(urls: seq<string>)
    requires forall i :: 0 <= i < |urls| ==> LineSafe(urls[i])
    ensures ReadLinks(Serialize(urls)) == urls
    decreases |urls|
  {
    if |urls| > 0 {
      var u := urls[0];
      var rest := Serialize(urls[1..]);
      TerminatedLine(u);
      ReadLinksCons(u + "\n", rest);
      ReadBackWritten(urls[1..]);
      calc {
        ReadLinks(Serialize(urls));
        { assert Serialize(urls) == (u + "\n") + rest; }
        ReadLinks((u + "\n") + rest);
        [Strip(u + "\n")] + ReadLinks(rest);
        [u] + urls[1..];
        { HeadTail(urls); }
        urls;
      }
    }
  }

  lemma HeadTail<T>(s: seq<T>)
    requires |s| > 0
    ensures [s[0]] + s[1..] == s
  {
  }

  /** A URL followed by a line break is one `readlines()` piece that strips back to the URL. */
  lemma TerminatedLine(u: string)
    requires LineSafe(u)
    ensures IsLinePiece(u + "\n") && EndsWithNewline(u + "\n") && NoReturn(u + "\n")
    ensures Strip(u + "\n") == u
  {
    var p := u + ['\n'];
    assert p[..|u|] == u;
    LacksAppend(u, '\r', '\n');
    StripTrailingSpace(u, '\n');
    assert p == u + "\n";
  }

  /** Why a URL must not hold a carriage return: text-mode reading turns it into a
      line break, so the one written line `x\ry` comes back as the two links `x` and `y`. */
  lemma ReturnSplitsLine(x: char, y: char)
    requires 'a' <= x <= 'z' && 'a' <= y <= 'z'
    ensures ReadLinks(Serialize([[x, '\r', y]])) == [[x], [y]]
  {
    var text := [x, '\r', y, '\n'];
    SerializeOne([x, '\r', y]);
    assert [x, '\r', y] + "\n" == text;
    ReturnTranslated(x, y);
    SameLinesSameLinks(text, [x, '\n', y, '\n']);
    TwoLinesReadBack(x, y);
  }

  /** A single URL is written as one terminated line. */
  lemma SerializeOne(u: string)
    ensures Serialize([u]) == u + "\n"
  {
    assert [u][1..] == [];
  }

  /** The links depend on the text only through its lines. */
  lemma SameLinesSameLinks(a: string, b: string)
    requires ReadLines(a) == ReadLines(b)
    ensures ReadLinks(a) == ReadLinks(b)
  {
  }

  /** The text `x\ry\n` reads as the same lines as `x\ny\n`. */
  lemma ReturnTranslated(x: char, y: char)
    requires 'a' <= x <= 'z' && 'a' <= y <= 'z'
    ensures ReadLines([x, '\r', y, '\n']) == ReadLines([x, '\n', y, '\n'])
  {
    var text := [x, '\r', y, '\n'];
    assert text[1..] == ['\r', y, '\n'] && text[1..][1..] == [y, '\n'] && text[1..][1..][1..] == "\n";
    assert TranslateNewlines("\n") == "\n";
    assert TranslateNewlines([y, '\n']) == [y, '\n'];
    assert TranslateNewlines(['\r', y, '\n']) == ['\n', y, '\n'];
    var t := [x, '\n', y, '\n'];
    assert Lacks(t, '\r');
    TranslateIdentity(t);
  }

  /** The file written for `[x, y]` reads back as those two links. */
  lemma TwoLinesReadBack(x: char, y: char)
    requires 'a' <= x <= 'z' && 'a' <= y <= 'z'
    ensures ReadLinks([x, '\n', y, '\n']) == [[x], [y]]
  {
    var urls := [[x], [y]];
    assert Serialize(urls) == [x] + "\n" + Serialize([[y]]);
    SerializeOne([y]);
    assert Serialize(urls) == [x, '\n', y, '\n'];
    LetterIsSafe(x);
    LetterIsSafe(y);
    assert forall i :: 0 <= i < |urls| ==> LineSafe(urls[i]);
    ReadBackWritten(urls);
  }

  /** A one-letter URL is a single clean line. */
  lemma LetterIsSafe(c: char)
    requires 'a' <= c <= 'z'
    ensures LineSafe([c])
  {
    assert [c][0] == c;
  }

  /** Writing out what was read and reading it again changes nothing. */
  lemma RereadIsStable(text: string)
    ensures ReadLinks(Serialize(ReadLinks(text))) == ReadLinks(text)
  {
    ReadBackWritten(ReadLinks(text));
  }

  // ---------------------------------------------------------------------------
  // Batching (lines 8-26)
  // ---------------------------------------------------------------------------

  /** The number of rounds the loop makes over `total` links: one per batch of `n`,
      the last one possibly shorter. */
  function BatchCount(total: nat, n: nat): nat
    requires n > 0
    decreases total
  {
    if total == 0 then 0 else 1 + BatchCount(total - Min(n, total), n)
  }

  lemma {:induction false} MulAtLeast(n: int, d: int)
    requires n > 0 && d >= 1
    ensures n * d >= n
    decreases d
  {
    if d > 1 {
      MulAtLeast(n, d - 1);
      assert n * d == n * (d - 1) + n;
    }
  }

  /** Euclidean division has one quotient. */
  lemma DivUnique(x: int, n: int, q: int, r: int)
    requires n > 0 && 0 <= r < n && x == n * q + r
    ensures x / n == q
  {
    var q', r' := x / n, x % n;
    assert x == n * q' + r';
    if q' < q {
      assert n * (q - q') == n * q - n * q';
      MulAtLeast(n, q - q');
    } else if q' > q {
      assert n * (q' - q) == n * q' - n * q;
      MulAtLeast(n, q' - q);
    }
  }

  /** Taking `n` links off a list of `total` takes one off the ceiling of `total / n`. */
  lemma CeilingStep(total: nat, n: nat)
    requires n > 0 && total > 0
    ensures (total + n - 1) / n == 1 + (total - Min(n, total) + n - 1) / n
  {
    if total > n {
      var x := total - n + n - 1;
      var q, r := x / n, x % n;
      DivUnique(x + n, n, q + 1, r);
    } else {
      DivUnique(total + n - 1, n, 1, total - 1);
      DivUnique(n - 1, n, 0, n - 1);
    }
  }

  /** The loop's round count is the ceiling of `total / n`. */
  lemma {:induction false} BatchCountIsCeiling(total: nat, n: nat)
    requires n > 0
    ensures BatchCount(total, n) == (total + n - 1) / n
    decreases total
  {
    if total == 0 {
      DivUnique(n - 1, n, 0, n - 1);
    } else {
      BatchCountIsCeiling(total - Min(n, total), n);
      CeilingStep(total, n);
    }
  }

  /** The batches the generator yields: the links cut into consecutive slices of `n`,
      the last one possibly shorter. Every batch is non-empty and at most `n` long,
      all but the last are exactly `n` long, there are ceil(total / n) of them and
      together, in order, they are the links again. */
  function Batches<T>(links: seq<T>, n: nat): (r: seq<seq<T>>)
    requires n > 0
    ensures Concat(r) == links
    ensures |r| == 0 <==> |links| == 0
    ensures |r| == BatchCount(|links|, n)
    ensures forall i :: 0 <= i < |r| ==> 0 < |r[i]| <= n
    ensures forall i :: 0 <= i < |r| - 1 ==> |r[i]| == n
    decreases |links|
  {
    if |links| == 0 then []
    else
      var m := Min(n, |links|);
      var rest := Batches(links[m..], n);
      assert links[..m] + links[m..] == links;
      [links[..m]] + rest
  }

  /** Batch `k` is the slice `[20k, min(20k + 20, total))` of the links. */
  lemma {:induction false} BatchIsSlice<T>(links: seq<T>, k: nat)
    requires k < |Batches(links, BatchSize)|
    ensures k * BatchSize < |links|
    ensures Batches(links, BatchSize)[k] == links[k * BatchSize .. Min(k * BatchSize + BatchSize, |links|)]
    decreases k
  {
    if k > 0 {
      var tail := links[BatchSize..];
      var rest := Batches(tail, BatchSize);
      assert Batches(links, BatchSize)[k] == rest[k - 1];
      BatchIsSlice(tail, k - 1);
      SliceStep(links, k, rest[k - 1]);
    }
  }

  /** Every batch is the slice of its round. */
  lemma BatchesAreSlices<T>(links: seq<T>)
    ensures forall k :: 0 <= k < |Batches(links, BatchSize)| ==>
              && k * BatchSize < |links|
              && Batches(links, BatchSize)[k] == links[k * BatchSize .. Min(k * BatchSize + BatchSize, |links|)]
  {
    forall k | 0 <= k < |Batches(links, BatchSize)|
      ensures && k * BatchSize < |links|
              && Batches(links, BatchSize)[k] == links[k * BatchSize .. Min(k * BatchSize + BatchSize, |links|)]
    {
      BatchIsSlice(links, k);
    }
  }

  /** Slice `k - 1` of what follows the first 20 links is slice `k` of the links. */
  lemma SliceStep<T>(links: seq<T>, k: nat, batch: seq<T>)
    requires BatchSize < |links| && k > 0
    requires (k - 1) * BatchSize < |links| - BatchSize
    requires batch == links[BatchSize..][(k - 1) * BatchSize .. Min((k - 1) * BatchSize + BatchSize, |links| - BatchSize)]
    ensures k * BatchSize < |links| && batch == links[k * BatchSize .. Min(k * BatchSize + BatchSize, |links|)]
  {
    var a := (k - 1) * BatchSize;
    var b := Min(a + BatchSize, |links| - BatchSize);
    assert links[BatchSize..][a..b] == links[BatchSize + a .. BatchSize + b];
  }

  /** `b` rounds of `n` links each, the last one possibly short, cover `total` links
      exactly when `b` is the batch count. */
  lemma RoundsAreBatchCount(total: nat, n: nat, b: nat)
    requires n > 0
    requires b == 0 ==> total == 0
    requires b > 0 ==> (b - 1) * n < total <= b * n
    ensures b == BatchCount(total, n)
  {
    BatchCountIsCeiling(total, n);
    if b == 0 {
      DivUnique(n - 1, n, 0, n - 1);
    } else {
      assert (b - 1) * n == b * n - n;
      DivUnique(total + n - 1, n, b, total + n - 1 - b * n);
    }
  }

  /** The loop of lines 8-26, with the opening of links and the keypress wait left
      out: it collects the slice `links[start:end]` of every round. */
  method ReadLinksInBatches(links: seq<string>) returns (batches: seq<seq<string>>)
    ensures |batches| == BatchCount(|links|, BatchSize)
    ensures forall k :: 0 <= k < |batches| ==>
              k * BatchSize < |links| && batches[k] == links[k * BatchSize .. Min(k * BatchSize + BatchSize, |links|)]
    ensures batches == Batches(links, BatchSize)
  {
    var current := 0;
    var total := |links|;
    batches := [];
    while current < total
      invariant current == |batches| * BatchSize
      invariant |batches| > 0 ==> current - BatchSize < total
      invariant forall k :: 0 <= k < |batches| ==>
                  k * BatchSize < total && batches[k] == links[k * BatchSize .. Min(k * BatchSize + BatchSize, total)]
      decreases total - current
    {
      var start := current;
      var end := Min(current + BatchSize, total);
      batches := batches + [links[start..end]];
      assert batches[|batches| - 1] == links[start..end];
      current := current + BatchSize;
    }
    RoundsAreBatchCount(total, BatchSize, |batches|);
    SlicesAreBatches(links, batches);
  }

  /** A list of slices of the generator's shape is the generator's batch list. */
  lemma SlicesAreBatches(links: seq<string>, batches: seq<seq<string>>)
    requires |batches| == BatchCount(|links|, BatchSize)
    requires forall k :: 0 <= k < |batches| ==>
               k * BatchSize < |links| && batches[k] == links[k * BatchSize .. Min(k * BatchSize + BatchSize, |links|)]
    ensures batches == Batches(links, BatchSize)
  {
    BatchesAreSlices(links);
  }

  /** Forty-five links come out as batches of 20, 20 and 5. */
  lemma FortyFiveLinks<T>(links: seq<T>)
    requires |links| == 45
    ensures var bs := Batches(links, BatchSize);
            |bs| == 3 && |bs[0]| == 20 && |bs[1]| == 20 && |bs[2]| == 5
  {
    var bs := Batches(links, BatchSize);
    assert |bs| == 3;
    BatchIsSlice(links, 2);
  }
}

=== FILE: extract_modlist.dfy ===
/**
 Turning a parsed Wabbajack manifest into Nexus Mods download URLs, and writing
 those URLs out one per line (extract_modlist.py).

 Each archive entry is looked up as `entry['State']['ModID']`,
 `entry['State']['FileID']` and `entry['State']['GameName'].lower()`. A
 lookup on something that is not a mapping raises `TypeError` and a missing
 key raises `KeyError`; both skip that entry only. A `GameName` that is not a
 string has no `.lower()`; the `AttributeError` is not handled per entry and
 ends the whole extraction before anything is written.
 */
module ExtractModlist {
  import opened Wrappers
  import opened Text

  /** A JSON value that is not a mapping. `Other` stands for lists, floats,
      booleans and null, and carries the text Python's `str()` gives it. */
  datatype Value = Str(s: string) | Int(i: int) | Other(text: string)

  /** The value stored under an entry's `State` key: a mapping or not. */
  datatype Field = Plain(v: Value) | Object(fields: map<string, Value>)

  /** One element of the manifest's `Archives` list. */
  datatype Entry = NotAMap | Map(fields: map<string, Field>)

  /** A parsed manifest document: a top-level mapping whose `Archives` key may be
      absent, or a top-level value that is not a mapping. */
  datatype Document = TopLevel(archives: Option<seq<Entry>>) | NonObject

  /** Why an entry was skipped: `TypeError` or `KeyError`. */
  datatype SkipReason = InvalidFormat | MissingKey

  /** The fate of one entry. `Raised` is the `AttributeError` of a non-string
      `GameName`, which no per-entry handler catches. */
  datatype Translation = Emitted(url: string) | Skipped(reason: SkipReason) | Raised

  const Host: string := "https://www.nexusmods.com/"
  const ModsPart: string := "/mods/"
  const FilePart: string := "?tab=files&file_id="

  /** Python's `str()` of a value, as an f-string substitutes it. */
  function Show(v: Value): string
  {
    match v
    case Str(s) => s
    case Int(i) => IntToString(i)
    case Other(t) => t
  }

  /** The URL of one file: the game segment is the lower-cased game name and
      sits right after the host; the URL is never empty (never falsy). */
  function NexusUrl(game: string, modId: string, fileId: string): (r: string)
    ensures |r| == |Host| + |game| + |ModsPart| + |modId| + |FilePart| + |fileId|
    ensures r[..|Host|] == Host
    ensures r[|Host|..|Host| + |game|] == Lower(game)
    ensures forall i :: |Host| <= i < |Host| + |game| ==> !IsUpper(r[i])
    ensures r[|Host| + |game|..] == ModsPart + modId + FilePart + fileId
  {
    var r := Host + Lower(game) + ModsPart + modId + FilePart + fileId;
    assert r[|Host|..|Host| + |game|] == Lower(game);
    assert r[|Host| + |game|..] == ModsPart + modId + FilePart + fileId;
    r
  }

  /** The three keys every well-formed `State` mapping carries. */
  predicate HasIds(st: map<string, Value>)
  {
    "ModID" in st && "FileID" in st && "GameName" in st
  }

  /** The `State` mapping of an entry, when the entry is a mapping with one. */
  predicate HasStateObject(e: Entry)
  {
    e.Map? && "State" in e.fields && e.fields["State"].Object?
  }

  /** An entry every lookup of the script succeeds on: a mapping whose `State` is a
      mapping holding the three keys, with a string `GameName`. */
  predicate WellFormed(e: Entry)
  {
    HasStateObject(e) && HasIds(e.fields["State"].fields)
    && e.fields["State"].fields["GameName"].Str?
  }

  /** The URL a well-formed entry stands for. */
  function UrlOf(e: Entry): string
    requires WellFormed(e)
  {
    var st := e.fields["State"].fields;
    NexusUrl(st["GameName"].s, Show(st["ModID"]), Show(st["FileID"]))
  }

  /** One pass of the try block at lines 20-30 of the script. */
  function Translate(e: Entry): (r: Translation)
    ensures r.Emitted? <==> WellFormed(e)
    ensures r.Emitted? ==> r.url == UrlOf(e)
    ensures r == Skipped(InvalidFormat) <==>
              e.NotAMap? || (e.Map? && "State" in e.fields && e.fields["State"].Plain?)
    ensures r == Skipped(MissingKey) <==>
              (e.Map? && "State" !in e.fields) || (HasStateObject(e) && !HasIds(e.fields["State"].fields))
    ensures r.Raised? <==>
              HasStateObject(e) && HasIds(e.fields["State"].fields) && !e.fields["State"].fields["GameName"].Str?
  {
    match e
    case NotAMap => Skipped(InvalidFormat)
    case Map(fields) =>
      if "State" !in fields then Skipped(MissingKey)
      else
        match fields["State"]
        case Plain(_) => Skipped(InvalidFormat)
        case Object(st) =>
          if "ModID" !in st || "FileID" !in st || "GameName" !in st then Skipped(MissingKey)
          else if !st["GameName"].Str? then Raised
          else Emitted(NexusUrl(st["GameName"].s, Show(st["ModID"]), Show(st["FileID"])))
  }

  /** A well-formed entry yields exactly the host, the lower-cased game, the mod id and the file id. */
  lemma WellFormedUrl(e: Entry)
    requires WellFormed(e)
    ensures var st := e.fields["State"].fields;
            Translate(e) == Emitted(Host + Lower(st["GameName"].s) + ModsPart + Show(st["ModID"]) + FilePart + Show(st["FileID"]))
  {
  }

  // ---------------------------------------------------------------------------
  // The extraction over all entries
  // ---------------------------------------------------------------------------

  /** True when no entry raises past the per-entry handlers. */
  predicate NoneRaise(entries: seq<Entry>)
  {
    forall i :: 0 <= i < |entries| ==> !Translate(entries[i]).Raised?
  }

  /** How many entries are skipped. */
  function SkippedCount(entries: seq<Entry>): nat
  {
    if |entries| == 0 then 0
    else (if Translate(entries[0]).Skipped? then 1 else 0) + SkippedCount(entries[1..])
  }

  /** The URLs of all entries, in entry order, skipped entries left out; `None` when
      an entry raises, since then the extraction ends without a result. */
  function Extract(entries: seq<Entry>): (r: Option<seq<string>>)
    ensures r.Some? <==> NoneRaise(entries)
    ensures r.Some? ==> |r.value| + SkippedCount(entries) == |entries|
    decreases |entries|
  {
    if |entries| == 0 then Some([])
    else
      NoneRaiseCons(entries);
      match Translate(entries[0])
      case Raised => None
      case Skipped(_) => Extract(entries[1..])
      case Emitted(u) =>
        match Extract(entries[1..])
        case None => None
        case Some(rest) => Some([u] + rest)
  }

  lemma NoneRaiseCons(entries: seq<Entry>)
    requires |entries| > 0
    ensures NoneRaise(entries) <==> !Translate(entries[0]).Raised? && NoneRaise(entries[1..])
  {
    assert forall i :: 1 <= i < |entries| ==> entries[i] == entries[1..][i - 1];
  }

  /** Extraction distributes over concatenation of the entry list, so the URLs keep
      the entries' order. */
  lemma {:induction false} ExtractAppend(a: seq<Entry>, b: seq<Entry>)
    ensures Extract(a + b) == (if Extract(a).Some? && Extract(b).Some? then Some(Extract(a).value + Extract(b).value) else None)
    decreases |a|
  {
    if |a| == 0 {
      assert a + b == b;
      assert Extract(a) == Some([]);
      if Extract(b).Some? {
        assert [] + Extract(b).value == Extract(b).value;
      }
    } else {
      assert (a + b)[1..] == a[1..] + b;
      assert (a + b)[0] == a[0];
      ExtractAppend(a[1..], b);
      match Translate(a[0]) {
        case Raised =>
        case Skipped(_) =>
        case Emitted(u) =>
          if Extract(a[1..]).Some? && Extract(b).Some? {
            var x, y := Extract(a[1..]).value, Extract(b).value;
            assert [u] + (x + y) == ([u] + x) + y;
          }
      }
    }
  }

  /** A skipped entry, wherever it sits, changes nothing about the other entries' URLs. */
  lemma SkipIsIsolated(a: seq<Entry>, e: Entry, b: seq<Entry>)
    requires Translate(e).Skipped?
    ensures Extract(a + [e] + b) == Extract(a + b)
  {
    ExtractAppend(a + [e], b);
    ExtractAppend(a, [e]);
    ExtractAppend(a, b);
    assert [e][1..] == [];
    assert Extract([e]) == Extract([]) == Some([]);
    if Extract(a).Some? {
      assert Extract(a).value + [] == Extract(a).value;
    }
  }

  /** Each URL of the extraction is a complete translation: the entry it came from
      has all three keys and a string game name. */
  lemma {:induction false} NoPartialUrl(entries: seq<Entry>, k: nat)
    requires Extract(entries).Some? && k < |Extract(entries).value|
    ensures exists i :: 0 <= i < |entries| && Translate(entries[i]) == Emitted(Extract(entries).value[k])
    decreases |entries|
  {
    var t := Translate(entries[0]);
    var rest := Extract(entries[1..]);
    if t.Emitted? && k == 0 {
      assert Translate(entries[0]) == Emitted(Extract(entries).value[k]);
    } else {
      var k' := if t.Emitted? then k - 1 else k;
      assert rest.Some? && Extract(entries).value[k] == rest.value[k'];
      NoPartialUrl(entries[1..], k');
      var i :| 0 <= i < |entries[1..]| && Translate(entries[1..][i]) == Emitted(rest.value[k']);
      assert entries[i + 1] == entries[1..][i];
    }
  }

  lemma ExtractOne(e: Entry)
    ensures Extract([e]) == match Translate(e)
                            case Raised => None
                            case Skipped(_) => Some([])
                            case Emitted(u) => Some([u])
  {
    assert [e][1..] == [];
    assert [e][0] == e;
    assert Extract([]) == Some([]);
    match Translate(e) {
      case Raised =>
      case Skipped(_) =>
      case Emitted(u) => assert [u] + [] == [u];
    }
  }

  /** The loop of lines 15-30: the URLs of the entries in order and the number of
      skips, or `raised` when an entry raises out of the loop. */
  method ExtractUrls(entries: seq<Entry>) returns (urls: seq<string>, skipped: nat, raised: bool)
    ensures raised <==> !NoneRaise(entries)
    ensures !raised ==> Extract(entries) == Some(urls)
    ensures !raised ==> skipped + |urls| == |entries|
  {
    urls := [];
    skipped := 0;
    var i := 0;
    while i < |entries|
      invariant 0 <= i <= |entries|
      invariant Extract(entries[..i]) == Some(urls)
      invariant skipped + |urls| == i
    {
      ExtractAppend(entries[..i], [entries[i]]);
      ExtractOne(entries[i]);
      assert entries[..i + 1] == entries[..i] + [entries[i]];
      match Translate(entries[i]) {
        case Raised =>
          assert !NoneRaise(entries);
          raised := true;
          return;
        case Skipped(_) =>
          assert urls + [] == urls;
          skipped := skipped + 1;
        case Emitted(u) =>
          urls := urls + [u];
      }
      i := i + 1;
    }
    assert entries[..i] == entries;
    raised := false;
  }

  // ---------------------------------------------------------------------------
  // The writer (lines 33-35)
  // ---------------------------------------------------------------------------

  /** The text of the output file: every URL followed by a line break, in order. */
  function Serialize(urls: seq<string>): (r: string)
    ensures r == [] <==> urls == []
    ensures urls != [] ==> EndsWithNewline(r)
    ensures |r| >= |urls|
  {
    if |urls| == 0 then "" else urls[0] + "\n" + Serialize(urls[1..])
  }

  /** The writing loop of lines 33-35, one `write(url + '\n')` per URL. */
  method WriteUrls(urls: seq<string>) returns (text: string)
    ensures text == Concat(seq(|urls|, k requires 0 <= k < |urls| => urls[k] + "\n"))
    ensures text == Serialize(urls)
  {
    text := "";
    var i := 0;
    while i < |urls|
      invariant 0 <= i <= |urls|
      invariant text + Serialize(urls[i..]) == Serialize(urls)
    {
      assert urls[i..][1..] == urls[i + 1..];
      text := text + (urls[i] + "\n");
      i := i + 1;
    }
    SerializeIsConcat(urls);
  }

  /** The writer's output is the in-order concatenation of `url + "\n"`. */
  lemma {:induction false} SerializeIsConcat(urls: seq<string>)
    ensures Serialize(urls) == Concat(seq(|urls|, k requires 0 <= k < |urls| => urls[k] + "\n"))
    decreases |urls|
  {
    var pieces := seq(|urls|, k requires 0 <= k < |urls| => urls[k] + "\n");
    if |urls| > 0 {
      SerializeIsConcat(urls[1..]);
      assert pieces[1..] == seq(|urls[1..]|, k requires 0 <= k < |urls[1..]| => urls[1..][k] + "\n");
    }
  }

  // ---------------------------------------------------------------------------
  // The script as a whole
  // ---------------------------------------------------------------------------

  /** The whole script: the content written to `output.txt`, or `None` when nothing
      is written (the manifest did not parse, had no `Archives`, or an entry raised). */
  function RunScript(parsed: Option<Document>): (written: Option<string>)
    ensures written.Some? ==>
              parsed.Some? && parsed.value.TopLevel? && parsed.value.archives.Some?
              && NoneRaise(parsed.value.archives.value)
              && written.value == Serialize(Extract(parsed.value.archives.value).value)
    ensures (parsed.Some? && parsed.value.TopLevel? && parsed.value.archives.Some?
             && NoneRaise(parsed.value.archives.value)) ==> written.Some?
  {
    match parsed
    case None => None
    case Some(NonObject) => None
    case Some(TopLevel(archives)) =>
      match archives
      case None => None
      case Some(entries) =>
        match Extract(entries)
        case None => None
        case Some(urls) => Some(Serialize(urls))
  }

  lemma LowerSkyrim()
    ensures Lower("Skyrim") == "skyrim"
  {
    var low := Lower("Skyrim");
    assert |low| == 6;
    forall i | 0 <= i < 6 ensures low[i] == "skyrim"[i] {
      assert low[i] == LowerChar("Skyrim"[i]);
    }
  }

  lemma ShowOneAndTen()
    ensures Show(Int(1)) == "1" && Show(Int(10)) == "10"
  {
    assert Digits(1) == [DigitChar(1)];
    assert Digits(10) == Digits(1) + [DigitChar(0)];
  }

  lemma UrlPrefixLiteral()
    ensures Host + "skyrim" + ModsPart + "1" == "https://www.nexusmods.com/skyrim/mods/1"
  {
    assert Host + "skyrim" == "https://www.nexusmods.com/skyrim";
  }

  lemma UrlLiteral()
    ensures Host + "skyrim" + ModsPart + "1" + FilePart + "10" == "https://www.nexusmods.com/skyrim/mods/1?tab=files&file_id=10"
  {
    UrlPrefixLiteral();
  }

  lemma SkyrimUrlText()
    ensures NexusUrl("Skyrim", "1", "10") == "https://www.nexusmods.com/skyrim/mods/1?tab=files&file_id=10"
  {
    var low := Lower("Skyrim");
    assert NexusUrl("Skyrim", "1", "10") == Host + low + ModsPart + "1" + FilePart + "10";
    LowerSkyrim();
    UrlLiteral();
  }

  /** An entry for mod 1, file 10 of "Skyrim" yields the lower-cased Skyrim URL. */
  lemma SkyrimEntryUrl(e: Entry)
    requires e == Map(map["State" := Object(map["ModID" := Int(1), "FileID" := Int(10), "GameName" := Str("Skyrim")])])
    ensures Translate(e) == Emitted("https://www.nexusmods.com/skyrim/mods/1?tab=files&file_id=10")
  {
    ShowOneAndTen();
    SkyrimUrlText();
    var st := map["ModID" := Int(1), "FileID" := Int(10), "GameName" := Str("Skyrim")];
    assert e.fields["State"] == Object(st);
    assert st["GameName"] == Str("Skyrim");
    assert st["ModID"] == Int(1);
    assert st["FileID"] == Int(10);
    assert WellFormed(e);
    assert UrlOf(e) == NexusUrl("Skyrim", "1", "10");
  }

  /** One good entry and one entry lacking its `State` give one URL and one skip. */
  lemma SkyrimExample(good: Entry, bad: Entry)
    requires good == Map(map["State" := Object(map["ModID" := Int(1), "FileID" := Int(10), "GameName" := Str("Skyrim")])])
    requires bad == Map(map["ModID" := Plain(Int(2))])
    ensures Extract([good, bad]) == Some(["https://www.nexusmods.com/skyrim/mods/1?tab=files&file_id=10"])
    ensures SkippedCount([good, bad]) == 1
  {
    SkyrimEntryUrl(good);
    assert Translate(bad) == Skipped(MissingKey);
    ExtractOne(good);
    ExtractOne(bad);
    ExtractAppend([good], [bad]);
    assert [good] + [bad] == [good, bad];
    assert [good, bad][1..] == [bad];
    assert [bad][1..] == [];
  }
}

=== FILE: gui.dfy ===
/**
 The cursor and progress state of the downloader's window (gui.py,
 `Application`), with every widget stripped away.

 The state is the batch generator (absent until the first successful import),
 `links_amount`, `processed_links` and the content of the output file (absent
 when the file does not exist). The generator is modelled as the batches it
 has not yet yielded. Opening a URL in the browser is an effect; the model
 returns the URLs it opens, in order.
 */
module Gui {
  import opened Wrappers
  import opened Text
  import opened ExtractModlist
  import opened BatchDownload

  datatype AppState = AppState(
    generator: Option<seq<seq<string>>>,
    linksAmount: int,
    processed: int,
    outputFile: Option<string>)

  /** The state a download session keeps consistent: once a generator exists and
      links were counted, the links processed so far plus the links still in the
      generator are exactly the counted links, and every pending batch holds 1 to 20 links. */
  predicate Consistent(s: AppState)
  {
    || s.generator.None?
    || s.linksAmount == 0
    || (&& 0 <= s.processed
        && s.processed + |Concat(s.generator.value)| == s.linksAmount
        && forall i :: 0 <= i < |s.generator.value| ==> 0 < |s.generator.value[i]| <= BatchSize)
  }

  // ---------------------------------------------------------------------------
  // import_links (lines 212-228)
  // ---------------------------------------------------------------------------

  /** Resets the progress, counts the lines of the output file and, when there is at
      least one, installs a fresh generator over the file's links. A missing file
      leaves count and generator as they were; an empty one sets the count to zero
      and keeps the old generator. */
  function ImportLinks(s: AppState): (r: AppState)
    ensures r.processed == 0
    ensures r.outputFile == s.outputFile
    ensures s.outputFile.None? ==> r.generator == s.generator && r.linksAmount == s.linksAmount
    ensures s.outputFile.Some? ==> r.linksAmount == |ReadLinks(s.outputFile.value)|
    ensures s.outputFile.Some? && r.linksAmount == 0 ==> r.generator == s.generator
    ensures s.outputFile.Some? && r.linksAmount != 0 ==>
              r.generator.Some? && Concat(r.generator.value) == ReadLinks(s.outputFile.value)
    ensures s.outputFile.Some? && r.linksAmount != 0 ==>
              r.generator == Some(Batches(ReadLinks(s.outputFile.value), BatchSize))
  {
    match s.outputFile
    case None => s.(processed := 0)
    case Some(text) =>
      var amount := CountLines(text);
      if amount == 0 then s.(processed := 0, linksAmount := 0)
      else s.(processed := 0, linksAmount := amount, generator := Some(Batches(ReadLinks(text), BatchSize)))
  }

  /** Importing an existing output file always leaves a consistent state. */
  lemma ImportKeepsConsistent(s: AppState)
    requires s.outputFile.Some?
    ensures Consistent(ImportLinks(s))
  {
  }

  /** Importing twice is importing once: the same count and the same batches, or,
      without a file, the same untouched count and generator. */
  lemma ImportIdempotent(s: AppState)
    ensures ImportLinks(ImportLinks(s)) == ImportLinks(s)
  {
  }

  // ---------------------------------------------------------------------------
  // get_batch and download_links (lines 230-259)
  // ---------------------------------------------------------------------------

  /** `next(generator)`: the next batch and the batches after it; an exhausted
      generator yields the empty batch. */
  function GetBatch(pending: seq<seq<string>>): (r: (seq<string>, seq<seq<string>>))
    ensures Concat(pending) == r.0 + Concat(r.1)
    ensures |pending| == 0 ==> r.0 == [] && r.1 == []
    ensures |pending| > 0 ==> |r.1| == |pending| - 1 && r.1 == pending[1..]
  {
    if |pending| == 0 then ([], []) else (pending[0], pending[1..])
  }

  /** True when `download_links` returns before pulling a batch. */
  predicate NothingToDownload(s: AppState)
  {
    s.generator.None? || s.linksAmount == 0 || s.processed == s.linksAmount
  }

  /** One press of "Download Batch": pulls the next batch, opens each of its URLs in
      order and counts each one as processed. Returns the new state and the URLs opened. */
  function DownloadLinks(s: AppState): (r: (AppState, seq<string>))
    ensures NothingToDownload(s) ==> r.0 == s && r.1 == []
    ensures !NothingToDownload(s) ==>
              && r.0.generator.Some?
              && Concat(s.generator.value) == r.1 + Concat(r.0.generator.value)
              && r.0.processed == s.processed + |r.1|
              && r.0.linksAmount == s.linksAmount
              && r.0.outputFile == s.outputFile
    ensures !NothingToDownload(s) && |s.generator.value| > 0 ==>
              r.1 == s.generator.value[0] && r.0.generator == Some(s.generator.value[1..])
    ensures !NothingToDownload(s) && |s.generator.value| == 0 ==>
              r.1 == [] && r.0.generator == Some([]) && r.0.processed == s.processed
  {
    if NothingToDownload(s) then (s, [])
    else
      var (batch, rest) := GetBatch(s.generator.value);
      (s.(generator := Some(rest), processed := s.processed + |batch|), batch)
  }

  /** Downloading keeps the state consistent. */
  lemma DownloadKeepsConsistent(s: AppState)
    requires Consistent(s)
    ensures Consistent(DownloadLinks(s).0)
  {
    if !NothingToDownload(s) {
      var pending := s.generator.value;
      var rest := DownloadLinks(s).0.generator.value;
      if |pending| > 0 {
        assert rest == pending[1..];
        forall i | 0 <= i < |rest| ensures 0 < |rest[i]| <= BatchSize {
          assert rest[i] == pending[i + 1];
        }
      }
    }
  }

  /** In a consistent state the progress never exceeds the number of links. */
  lemma ProgressBounded(s: AppState)
    requires Consistent(s) && s.generator.Some? && s.linksAmount != 0
    ensures 0 <= s.processed <= s.linksAmount
    ensures s.processed == s.linksAmount <==> Concat(s.generator.value) == []
  {
  }

  /** While links remain, a download opens between 1 and 20 of them, the next ones
      in file order. */
  lemma DownloadMakesProgress(s: AppState)
    requires Consistent(s) && !NothingToDownload(s)
    ensures var batch := DownloadLinks(s).1;
            && 0 < |batch| <= BatchSize
            && batch == Concat(s.generator.value)[..|batch|]
            && DownloadLinks(s).0.processed > s.processed
  {
    var pending := s.generator.value;
    assert |Concat(pending)| > 0;
    var batch := DownloadLinks(s).1;
    assert batch == pending[0];
    assert Concat(pending)[..|batch|] == batch;
  }

  /** Pressing "Download Batch" `k` times: the final state and every URL opened, in order. */
  function DownloadTimes(s: AppState, k: nat): (AppState, seq<string>)
    decreases k
  {
    if k == 0 then (s, [])
    else
      var (s1, batch) := DownloadLinks(s);
      var (s2, later) := DownloadTimes(s1, k - 1);
      (s2, batch + later)
  }

  /** From a consistent state, one press per pending batch opens every pending link
      exactly once, in file order, and completes the progress. */
  lemma {:induction false} DownloadAllPending(s: AppState)
    requires Consistent(s) && s.generator.Some? && s.linksAmount != 0
    ensures var (t, seen) := DownloadTimes(s, |s.generator.value|);
            seen == Concat(s.generator.value) && t.processed == t.linksAmount
    decreases |s.generator.value|
  {
    var pending := s.generator.value;
    if |pending| == 0 {
      assert Concat(pending) == [];
    } else {
      assert |Concat(pending)| > 0 by {
        assert Concat(pending) == pending[0] + Concat(pending[1..]);
      }
      var (s1, batch) := DownloadLinks(s);
      DownloadKeepsConsistent(s);
      assert s1.generator.value == pending[1..];
      DownloadAllPending(s1);
      ConcatAppend([batch], pending[1..]);
      assert [batch] + pending[1..] == pending;
      assert Concat([batch]) == batch + Concat([batch][1..]);
      assert [batch][1..] == [];
    }
  }

  /** Right after importing a file of `n` links, ceil(n / 20) presses open all of them
      in file order and bring the progress to `n` of `n`. */
  lemma FreshImportDownloadsEverything(s: AppState)
    requires s.outputFile.Some? && CountLines(s.outputFile.value) > 0
    ensures var r := ImportLinks(s);
            var (t, seen) := DownloadTimes(r, BatchCount(r.linksAmount, BatchSize));
            seen == ReadLinks(s.outputFile.value) && t.processed == t.linksAmount == r.linksAmount
  {
    var r := ImportLinks(s);
    ImportKeepsConsistent(s);
    DownloadAllPending(r);
    DownloadTimesKeepsCount(r, |r.generator.value|);
  }

  lemma {:induction false} DownloadTimesKeepsCount(s: AppState, k: nat)
    ensures DownloadTimes(s, k).0.linksAmount == s.linksAmount
    decreases k
  {
    if k > 0 {
      DownloadTimesKeepsCount(DownloadLinks(s).0, k - 1);
    }
  }

  // ---------------------------------------------------------------------------
  // extract_url and extract_file (lines 261-307)
  // ---------------------------------------------------------------------------

  /** The list comprehension of line 294: the URLs of the `Archives` entries (none when
      the key is missing); `None` when an exception escapes (the document is not a
      mapping, or an entry's game name is not a string). */
  function GuiUrls(doc: Document): (r: Option<seq<string>>)
    ensures doc.NonObject? ==> r.None?
    ensures doc.TopLevel? && doc.archives.None? ==> r == Some([])
    ensures doc.TopLevel? && doc.archives.Some? ==> r == Extract(doc.archives.value)
  {
    match doc
    case NonObject => None
    case TopLevel(archives) => Extract(archives.GetOr([]))
  }

  /** Every URL the comprehension keeps is non-empty, so the truthiness filter of
      line 294 drops exactly the skipped entries. */
  lemma NoFalsyUrl(entries: seq<Entry>, k: nat)
    requires Extract(entries).Some? && k < |Extract(entries).value|
    ensures |Extract(entries).value[k]| > |Host|
  {
    NoPartialUrl(entries, k);
  }

  /** True when the user is asked about an existing output file and declines. */
  predicate Declined(s: AppState, overwrite: bool)
  {
    s.outputFile.Some? && !overwrite
  }

  /** Generates the URLs, asks before overwriting an existing output file, writes the
      file and imports it. `overwrite` is the user's answer to the dialog. `None`
      means an exception escaped before anything changed. */
  function ExtractUrl(s: AppState, doc: Document, overwrite: bool): (r: Option<AppState>)
    ensures r.None? <==> GuiUrls(doc).None?
    ensures r.Some? && Declined(s, overwrite) ==> r.value == s
    ensures r.Some? && !Declined(s, overwrite) ==>
              && r.value.outputFile == Some(Serialize(GuiUrls(doc).value))
              && r.value.processed == 0
    ensures r.Some? && !Declined(s, overwrite) ==>
              r.value == ImportLinks(s.(outputFile := Some(Serialize(GuiUrls(doc).value))))
  {
    match GuiUrls(doc)
    case None => None
    case Some(urls) =>
      if Declined(s, overwrite) then Some(s)
      else Some(ImportLinks(s.(outputFile := Some(Serialize(urls)))))
  }

  /** After an accepted extraction whose URLs are all single clean lines, the count
      is the number of URLs and the generator walks exactly those URLs in order. */
  lemma ExtractThenImportRoundTrip(s: AppState, doc: Document, overwrite: bool)
    requires GuiUrls(doc).Some? && !Declined(s, overwrite)
    requires forall i :: 0 <= i < |GuiUrls(doc).value| ==> LineSafe(GuiUrls(doc).value[i])
    ensures var r := ExtractUrl(s, doc, overwrite).value;
            var urls := GuiUrls(doc).value;
            && r.linksAmount == |urls|
            && (|urls| > 0 ==> r.generator.Some? && Concat(r.generator.value) == urls)
  {
    ReadBackWritten(GuiUrls(doc).value);
  }

  /** A manifest without an `Archives` key writes an empty file and leaves nothing to download. */
  lemma MissingArchivesImportsNothing(s: AppState, overwrite: bool)
    requires !Declined(s, overwrite)
    ensures var r := ExtractUrl(s, TopLevel(None), overwrite).value;
            r.outputFile == Some("") && r.linksAmount == 0 && NothingToDownload(r)
  {
  }

  /** Declining the overwrite dialog changes nothing at all. */
  lemma DeclineChangesNothing(s: AppState, doc: Document)
    requires s.outputFile.Some? && GuiUrls(doc).Some?
    ensures ExtractUrl(s, doc, false) == Some(s)
  {
  }

  /** `str.replace("'", '"')` on the decoded manifest: every single quote becomes a
      double quote and nothing else changes. */
  function NormalizeQuotes(text: string): (r: string)
    ensures |r| == |text|
    ensures forall i :: 0 <= i < |text| ==> r[i] == (if text[i] == '\'' then '"' else text[i])
    ensures forall i :: 0 <= i < |r| ==> r[i] != '\''
  {
    if |text| == 0 then ""
    else [if text[0] == '\'' then '"' else text[0]] + NormalizeQuotes(text[1..])
  }

  /** The "Extract" button: reads the `modlist` member of the chosen archive,
      normalises its quotes, parses it and runs `ExtractUrl`. Every failure on the way
      is caught and leaves the state as it was. `modlist` is the decoded member, or
      `None` when the archive cannot be opened; `parse` stands for `json.loads`. */
  function ExtractFile(s: AppState, filename: string, modlist: Option<string>,
                       parse: string -> Option<Document>, overwrite: bool): (r: AppState)
    ensures filename == "" || modlist.None? ==> r == s
    ensures filename != "" && modlist.Some? && parse(NormalizeQuotes(modlist.value)).None? ==> r == s
    ensures r != s ==> r.processed == 0 && r.outputFile.Some?
    ensures filename != "" && modlist.Some? && parse(NormalizeQuotes(modlist.value)).Some? ==>
              r == ExtractUrl(s, parse(NormalizeQuotes(modlist.value)).value, overwrite).GetOr(s)
  {
    if filename == "" then s
    else match modlist
      case None => s
      case Some(text) =>
        match parse(NormalizeQuotes(text))
        case None => s
        case Some(doc) => ExtractUrl(s, doc, overwrite).GetOr(s)
  }

  /** Extracting keeps a consistent state consistent, whatever the outcome. */
  lemma ExtractFileKeepsConsistent(s: AppState, filename: string, modlist: Option<string>,
                                   parse: string -> Option<Document>, overwrite: bool)
    requires Consistent(s)
    ensures Consistent(ExtractFile(s, filename, modlist, parse, overwrite))
  {
    if filename != "" && modlist.Some? {
      var parsed := parse(NormalizeQuotes(modlist.value));
      if parsed.Some? && GuiUrls(parsed.value).Some? && !Declined(s, overwrite) {
        ImportKeepsConsistent(s.(outputFile := Some(Serialize(GuiUrls(parsed.value).value))));
      }
    }
  }

  // ---------------------------------------------------------------------------
  // Start-up (lines 93-102, 309-313)
  // ---------------------------------------------------------------------------

  /** Imports the output file when it exists. */
  function CheckOutputFile(s: AppState): (r: AppState)
    ensures s.outputFile.None? ==> r == s
    ensures s.outputFile.Some? ==> r.processed == 0 && Consistent(r)
    ensures s.outputFile.Some? ==> r == ImportLinks(s)
  {
    if s.outputFile.Some? then ImportLinks(s) else s
  }

  /** The state right after the window is built, given the output file's content. */
  function Init(outputFile: Option<string>): (r: AppState)
    ensures Consistent(r)
    ensures r.processed == 0 && r.outputFile == outputFile
    ensures outputFile.None? ==> r.generator.None? && r.linksAmount == 0
    ensures outputFile.Some? ==> r.linksAmount == CountLines(outputFile.value)
    ensures outputFile.Some? && r.linksAmount == 0 ==> r.generator.None?
    ensures outputFile.Some? && r.linksAmount != 0 ==>
              r.generator == Some(Batches(ReadLinks(outputFile.value), BatchSize))
  {
    CheckOutputFile(AppState(None, 0, 0, outputFile))
  }
}

/** The `Application` window as a mutable object whose operations are the
    transitions of module `Gui`. */
module GuiWindow {
  import opened Wrappers
  import opened ExtractModlist
  import Gui

  /** The `Application` object: its fields are the state above, and `browsed` logs every
      URL handed to the browser. */
  class Application {
    var generator: Option<seq<seq<string>>>
    var linksAmount: int
    var processed: int
    var outputFile: Option<string>
    var browsed: seq<string>

    function State(): Gui.AppState
      reads this
    {
      Gui.AppState(generator, linksAmount, processed, outputFile)
    }

    constructor (existing: Option<string>)
      ensures State() == Gui.Init(existing) && browsed == []
      ensures Gui.Consistent(State())
    {
      var s := Gui.Init(existing);
      generator, linksAmount, processed, outputFile := s.generator, s.linksAmount, s.processed, s.outputFile;
      browsed := [];
    }

    method ImportLinks()
      modifies this
      ensures State() == Gui.ImportLinks(old(State())) && browsed == old(browsed)
      ensures old(outputFile).Some? ==> Gui.Consistent(State())
    {
      var s := Gui.ImportLinks(State());
      if outputFile.Some? {
        Gui.ImportKeepsConsistent(State());
      }
      generator, linksAmount, processed := s.generator, s.linksAmount, s.processed;
    }

    method DownloadLinks() returns (batch: seq<string>)
      modifies this
      ensures (State(), batch) == Gui.DownloadLinks(old(State()))
      ensures browsed == old(browsed) + batch
      ensures Gui.Consistent(old(State())) ==> Gui.Consistent(State())
    {
      var (s, b) := Gui.DownloadLinks(State());
      if Gui.Consistent(State()) {
        Gui.DownloadKeepsConsistent(State());
      }
      generator, processed := s.generator, s.processed;
      browsed := browsed + b;
      batch := b;
    }

    method ExtractFile(filename: string, modlist: Option<string>,
                        parse: string -> Option<Document>, overwrite: bool)
      modifies this
      ensures State() == Gui.ExtractFile(old(State()), filename, modlist, parse, overwrite)
      ensures browsed == old(browsed)
      ensures Gui.Consistent(old(State())) ==> Gui.Consistent(State())
    {
      var s := Gui.ExtractFile(State(), filename, modlist, parse, overwrite);
      if Gui.Consistent(State()) {
        Gui.ExtractFileKeepsConsistent(State(), filename, modlist, parse, overwrite);
      }
      generator, linksAmount, processed, outputFile := s.generator, s.linksAmount, s.processed, s.outputFile;
    }
  }
}

=== FILE: text.dfy ===
/**
 The Python string and text-file primitives the downloader relies on, written out
 over `seq<char>`: `str.isspace`/`str.strip`, ASCII `str.lower`, `str()` of an
 integer, the newline translation of a text-mode read, and the way `readlines()`
 cuts a text into lines.
 */
module Text {

  /** Flattens a sequence of sequences in order. */
  function Concat<T>(xs: seq<seq<T>>): seq<T>
  {
    if |xs| == 0 then [] else xs[0] + Concat(xs[1..])
  }

  lemma {:induction false} ConcatAppend<T>(a: seq<seq<T>>, b: seq<seq<T>>)
    ensures Concat(a + b) == Concat(a) + Concat(b)
    decreases |a|
  {
    if |a| == 0 {
      assert a + b == b;
    } else {
      assert (a + b)[1..] == a[1..] + b;
      ConcatAppend(a[1..], b);
    }
  }

  // ---------------------------------------------------------------------------
  // str.isspace and str.strip
  // ---------------------------------------------------------------------------

  /** Python's `str.isspace` for one character: the ASCII whitespace and
      information separators, the Unicode space separators, and NEL, LINE SEPARATOR
      and PARAGRAPH SEPARATOR. */
  predicate IsSpace(c: char)
  {
    || c == ' ' || c == '\t' || c == '\n' || c == '\r' || c == '\U{0B}' || c == '\U{0C}'
    || ('\U{1C}' <= c <= '\U{1F}')
    || c == '\U{85}' || c == '\U{A0}' || c == '\U{1680}'
    || ('\U{2000}' <= c <= '\U{200A}')
    || c == '\U{2028}' || c == '\U{2029}' || c == '\U{202F}' || c == '\U{205F}' || c == '\U{3000}'
  }

  /** True when every character of `s` is whitespace (this includes the empty string). */
  predicate IsBlank(s: string)
  {
    forall i :: 0 <= i < |s| ==> IsSpace(s[i])
  }

  /** True when `s` neither starts nor ends with whitespace. */
  predicate IsStripped(s: string)
  {
    |s| > 0 ==> !IsSpace(s[0]) && !IsSpace(s[|s| - 1])
  }

  /** Where `rstrip` cuts `s[..j]`: the end of the longest prefix that does not end
      in whitespace. */
  function TrimEnd(s: string, j: nat): (k: nat)
    requires j <= |s|
    ensures k <= j
    ensures forall m :: k <= m < j ==> IsSpace(s[m])
    ensures k > 0 ==> !IsSpace(s[k - 1])
    decreases j
  {
    if j > 0 && IsSpace(s[j - 1]) then TrimEnd(s, j - 1) else j
  }

  /** Where `lstrip` cuts `s[i..j]`: the first position from `i` on that is not
      whitespace, or `j`. */
  function TrimStart(s: string, i: nat, j: nat): (k: nat)
    requires i <= j <= |s|
    ensures i <= k <= j
    ensures forall m :: i <= m < k ==> IsSpace(s[m])
    ensures k < j ==> !IsSpace(s[k])
    decreases j - i
  {
    if i < j && IsSpace(s[i]) then TrimStart(s, i + 1, j) else i
  }

  /** `str.strip()`: `s` without its leading and trailing whitespace (the slice it
      keeps is stated by `StripIsTrimmedSlice`). */
  function Strip(s: string): (r: string)
    ensures |r| <= |s|
    ensures IsStripped(r)
    ensures r == [] <==> IsBlank(s)
    ensures IsStripped(s) ==> r == s
  {
    var j := TrimEnd(s, |s|);
    var i := TrimStart(s, 0, j);
    s[i..j]
  }

  /** What `strip` keeps is a slice of `s` with only whitespace before and after it;
      together with `IsStripped(Strip(s))` this determines the result. */
  lemma StripIsTrimmedSlice(s: string)
    ensures var r := Strip(s);
            exists i :: 0 <= i && i + |r| <= |s| && r == s[i..i + |r|]
                        && IsBlank(s[..i]) && IsBlank(s[i + |r|..])
  {
    var j := TrimEnd(s, |s|);
    var i := TrimStart(s, 0, j);
    forall m | 0 <= m < i ensures IsSpace(s[..i][m]) {
      assert s[..i][m] == s[m];
    }
    forall m | 0 <= m < |s| - j ensures IsSpace(s[j..][m]) {
      assert s[j..][m] == s[j + m];
    }
    assert Strip(s) == s[i..j];
  }

  /** `TrimEnd` looks only at the characters before `j`. */
  lemma {:induction false} TrimEndAgrees(s: string, u: string, j: nat)
    requires j <= |s| && j <= |u|
    requires forall m :: 0 <= m < j ==> s[m] == u[m]
    ensures TrimEnd(s, j) == TrimEnd(u, j)
    decreases j
  {
    if j > 0 {
      TrimEndAgrees(s, u, j - 1);
    }
  }

  /** `TrimStart` looks only at the characters between `i` and `j`. */
  lemma {:induction false} TrimStartAgrees(s: string, u: string, i: nat, j: nat)
    requires i <= j <= |s| && j <= |u|
    requires forall m :: i <= m < j ==> s[m] == u[m]
    ensures TrimStart(s, i, j) == TrimStart(u, i, j)
    decreases j - i
  {
    if i < j {
      TrimStartAgrees(s, u, i + 1, j);
    }
  }

  /** Whitespace appended at the end of a string is removed again by `strip`. */
  lemma StripTrailingSpace(s: string, c: char)
    requires IsSpace(c)
    ensures Strip(s + [c]) == Strip(s)
  {
    var u := s + [c];
    assert u[|s|] == c;
    assert TrimEnd(u, |u|) == TrimEnd(u, |s|);
    TrimEndAgrees(s, u, |s|);
    var j := TrimEnd(s, |s|);
    TrimStartAgrees(s, u, 0, j);
    assert u[TrimStart(s, 0, j)..j] == s[TrimStart(s, 0, j)..j];
  }

  /** `strip` keeps out any character its input lacks. */
  lemma StripKeepsLacks(s: string, c: char)
    requires Lacks(s, c)
    ensures Lacks(Strip(s), c)
  {
    var j := TrimEnd(s, |s|);
    LacksSlice(s, c, TrimStart(s, 0, j), j);
  }

  // ---------------------------------------------------------------------------
  // str.lower (ASCII)
  // ---------------------------------------------------------------------------

  predicate IsUpper(c: char)
  {
    'A' <= c <= 'Z'
  }

  function LowerChar(c: char): (r: char)
    ensures !IsUpper(r)
    ensures IsUpper(c) ==> r as int == c as int + 32
    ensures !IsUpper(c) ==> r == c
  {
    if IsUpper(c) then (c as int + 32) as char else c
  }

  /** `str.lower()` restricted to ASCII letters: every character is mapped on its own,
      so the result has the input's length and no upper-case ASCII letter. */
  function Lower(s: string): (r: string)
    ensures |r| == |s|
    ensures forall i :: 0 <= i < |s| ==> r[i] == LowerChar(s[i])
    ensures forall i :: 0 <= i < |r| ==> !IsUpper(r[i])
    decreases |s|
  {
    if |s| == 0 then "" else [LowerChar(s[0])] + Lower(s[1..])
  }

  // ---------------------------------------------------------------------------
  // str() of an integer
  // ---------------------------------------------------------------------------

  predicate IsDigit(c: char)
  {
    '0' <= c <= '9'
  }

  function DigitChar(d: nat): (c: char)
    requires d < 10
    ensures IsDigit(c)
  {
    ('0' as int + d) as char
  }

  /** The decimal value of a string of digits (the reading side of `Digits`). */
  function DigitsValue(s: string): int
    requires forall i :: 0 <= i < |s| ==> IsDigit(s[i])
  {
    if |s| == 0 then 0 else DigitsValue(s[..|s| - 1]) * 10 + (s[|s| - 1] as int - '0' as int)
  }

  /** The decimal digits of `n` without leading zeros. */
  function Digits(n: nat): (r: string)
    ensures |r| > 0
    ensures forall i :: 0 <= i < |r| ==> IsDigit(r[i])
    ensures r[0] == '0' ==> n == 0
    decreases n
  {
    if n < 10 then [DigitChar(n)] else Digits(n / 10) + [DigitChar(n % 10)]
  }

  /** Reading back the digits of `n` gives `n`. */
  lemma {:induction false} DigitsRoundTrip(n: nat)
    ensures DigitsValue(Digits(n)) == n
    decreases n
  {
    if n >= 10 {
      var r := Digits(n);
      assert r[..|r| - 1] == Digits(n / 10);
      DigitsRoundTrip(n / 10);
    }
  }

  /** Python's `str(i)` for an integer: a minus sign for negatives, then the digits. */
  function IntToString(i: int): (r: string)
    ensures |r| > 0
    ensures i < 0 <==> r[0] == '-'
    ensures i >= 0 ==> r == Digits(i)
    ensures i < 0 ==> r[1..] == Digits(-i)
  {
    if i < 0 then "-" + Digits(-i) else Digits(i)
  }

  // ---------------------------------------------------------------------------
  // readlines()
  // ---------------------------------------------------------------------------

  /** True when the character `c` does not occur in `s`. */
  predicate Lacks(s: string, c: char)
  {
    forall i :: 0 <= i < |s| ==> s[i] != c
  }

  /** A slice of a string lacking `c` lacks `c`. */
  lemma LacksSlice(s: string, c: char, i: nat, j: nat)
    requires Lacks(s, c) && i <= j <= |s|
    ensures Lacks(s[i..j], c)
  {
    assert forall x :: 0 <= x < j - i ==> s[i..j][x] == s[i + x];
  }

  /** Appending a character other than `c` keeps `c` absent. */
  lemma LacksAppend(s: string, c: char, d: char)
    requires Lacks(s, c) && d != c
    ensures Lacks(s + [d], c)
  {
    assert forall x :: 0 <= x < |s| ==> (s + [d])[x] == s[x];
  }

  /** True when `s` holds no line break. */
  predicate NoNewline(s: string)
  {
    Lacks(s, '\n')
  }

  /** True when `s` holds no carriage return. */
  predicate NoReturn(s: string)
  {
    Lacks(s, '\r')
  }

  /** The universal-newline translation of a file opened in text mode: `\r\n` and a
      lone `\r` both become `\n`; every other character is kept. */
  function TranslateNewlines(s: string): (r: string)
    ensures NoReturn(r)
    ensures |r| <= |s|
    decreases |s|
  {
    if |s| == 0 then ""
    else if s[0] == '\r' then
      if |s| > 1 && s[1] == '\n' then "\n" + TranslateNewlines(s[2..])
      else "\n" + TranslateNewlines(s[1..])
    else [s[0]] + TranslateNewlines(s[1..])
  }

  /** A prefix without carriage returns passes through the translation unchanged and
      does not affect how the rest is translated. */
  lemma {:induction false} TranslateKeepsPrefix(a: string, b: string)
    requires NoReturn(a)
    ensures TranslateNewlines(a + b) == a + TranslateNewlines(b)
    decreases |a|
  {
    if |a| == 0 {
      assert a + b == b;
    } else {
      assert (a + b)[0] == a[0];
      assert (a + b)[1..] == a[1..] + b;
      LacksSlice(a, '\r', 1, |a|);
      TranslateKeepsPrefix(a[1..], b);
      assert [a[0]] + (a[1..] + TranslateNewlines(b)) == a + TranslateNewlines(b);
    }
  }

  /** A `\r\n` pair after a prefix without carriage returns becomes one `\n`. */
  lemma TranslateCRLF(a: string, b: string)
    requires NoReturn(a)
    ensures TranslateNewlines(a + "\r\n" + b) == a + "\n" + TranslateNewlines(b)
  {
    var c := "\r\n" + b;
    assert a + "\r\n" + b == a + c;
    TranslateKeepsPrefix(a, c);
    assert c[0] == '\r' && c[1] == '\n' && c[2..] == b;
    assert a + ("\n" + TranslateNewlines(b)) == a + "\n" + TranslateNewlines(b);
  }

  /** A lone `\r` (one not followed by `\n`) after a prefix without carriage returns
      becomes one `\n`. */
  lemma TranslateLoneCR(a: string, b: string)
    requires NoReturn(a) && (|b| == 0 || b[0] != '\n')
    ensures TranslateNewlines(a + "\r" + b) == a + "\n" + TranslateNewlines(b)
  {
    var c := "\r" + b;
    assert a + "\r" + b == a + c;
    TranslateKeepsPrefix(a, c);
    LeadingLoneCR(b);
    assert a + ("\n" + TranslateNewlines(b)) == a + "\n" + TranslateNewlines(b);
  }

  /** A leading `\r` not followed by `\n` becomes one `\n`. */
  lemma LeadingLoneCR(b: string)
    requires |b| == 0 || b[0] != '\n'
    ensures TranslateNewlines("\r" + b) == "\n" + TranslateNewlines(b)
  {
    var c := "\r" + b;
    assert c[0] == '\r' && c[1..] == b;
    if |b| > 0 {
      assert c[1] == b[0];
    }
  }

  /** A text without carriage returns is left as it is, so translating twice is
      translating once. */
  lemma TranslateIdentity(s: string)
    requires NoReturn(s)
    ensures TranslateNewlines(s) == s
  {
    TranslateKeepsPrefix(s, "");
    assert s + "" == s;
  }

  /** The length of the first line of a non-empty text, its line break included. */
  function LineEnd(s: string): (k: nat)
    requires |s| > 0
    ensures 1 <= k <= |s|
    ensures NoNewline(s[..k - 1])
    ensures s[k - 1] == '\n' || k == |s|
    decreases |s|
  {
    if s[0] == '\n' || |s| == 1 then 1 else 1 + LineEnd(s[1..])
  }

  /** A piece `readlines()` can return: non-empty, no line break except a last one. */
  predicate IsLinePiece(p: string)
  {
    |p| > 0 && NoNewline(p[..|p| - 1])
  }

  predicate EndsWithNewline(p: string)
  {
    |p| > 0 && p[|p| - 1] == '\n'
  }

  /** `readlines()`: the text cut after every line break; the last piece lacks a
      line break when the text does not end with one; an empty text has no lines. */
  function RawLines(s: string): (r: seq<string>)
    ensures Concat(r) == s
    ensures forall i :: 0 <= i < |r| ==> IsLinePiece(r[i])
    ensures forall i :: 0 <= i < |r| - 1 ==> EndsWithNewline(r[i])
    decreases |s|
  {
    if |s| == 0 then []
    else
      var k := LineEnd(s);
      [s[..k]] + RawLines(s[k..])
  }

  /** Every line of a text lacking `c` lacks `c`. */
  lemma {:induction false} RawLinesLack(s: string, c: char)
    requires Lacks(s, c)
    ensures forall i :: 0 <= i < |RawLines(s)| ==> Lacks(RawLines(s)[i], c)
    decreases |s|
  {
    if |s| > 0 {
      var k := LineEnd(s);
      LacksSlice(s, c, 0, k);
      LacksSlice(s, c, k, |s|);
      assert s[0..k] == s[..k];
      RawLinesLack(s[k..], c);
      assert RawLines(s) == [s[..k]] + RawLines(s[k..]);
    }
  }

  /** `readlines()` on a file opened in text mode: the translated text cut into lines. */
  function ReadLines(s: string): (r: seq<string>)
    ensures Concat(r) == TranslateNewlines(s)
    ensures forall i :: 0 <= i < |r| ==> IsLinePiece(r[i]) && NoReturn(r[i])
    ensures forall i :: 0 <= i < |r| - 1 ==> EndsWithNewline(r[i])
  {
    RawLinesLack(TranslateNewlines(s), '\r');
    RawLines(TranslateNewlines(s))
  }

  /** A line ending in a line break at the front of a text is exactly its first piece. */
  lemma {:induction false} RawLinesCons(p: string, rest: string)
    requires IsLinePiece(p) && EndsWithNewline(p)
    ensures RawLines(p + rest) == [p] + RawLines(rest)
  {
    var s := p + rest;
    var k := LineEnd(s);
    assert forall j :: 0 <= j < k - 1 ==> s[..k - 1][j] == s[j];
    assert forall j :: 0 <= j < |p| - 1 ==> p[..|p| - 1][j] == s[j];
    assert s[|p| - 1] == '\n';
    assert k == |p|;
    assert s[..k] == p;
    assert s[k..] == rest;
  }
}

=== FILE: wrappers.dfy ===
/** The optional-value type shared by every module of the model. */
module Wrappers {

  /** A value that may be absent: a file that does not exist, a generator not yet
      created, an operation that raised before producing its result. */
  datatype Option<+T> = None | Some(value: T) {

    /** The wrapped value, or `default` when there is none. */
    function GetOr(default: T): (r: T)
      ensures Some? ==> r == value
      ensures None? ==> r == default
    {
      match this
      case Some(v) => v
      case None => default
    }
  }
}
